=== FILE: README.md ===
# Flashcard store and view-state model

A Dafny model of the state machine inside `app.js`, a browser script for studying
safety-exam terms with flashcards. The script keeps a store that maps each of three
fixed categories to an ordered list of cards `{id, term, imageDataUrl, createdAt}`.
The store is loaded once from one storage slot and saved after every add and delete.
On top of the store sit the view state and the keyboard handling:

- the selected category and screen;
- the learning overlay, a deck with a cursor (`index`, `showTerm`);
- the manage modal, with the element to refocus when it closes;
- the add form's submit button;
- the document-level keydown handler, including the Tab trap of the modal.

The DOM is abstracted away. Each event handler is a method of `AppState.App`, which
changes its fields in place. The pure decisions are functions, with lemmas about them:

- the cursor steps (`Learning`);
- what the overlay displays (`Learning.Render`);
- the counter text;
- the key dispatch and the focus trap (`Keyboard`);
- load normalisation, find and delete (`Store`);
- `trim` and `String(n)` (`Text`).

The overlay's deck is the selected category's own array, not a copy. So a card added
to or deleted from that category also changes the deck. The model keeps this by
storing in `App.deck` *which* array the deck is (`Some(category)`), not its contents.
`Items()` always reads the current cards. As a result, the cursor invariant `InRange`
holds across open, next, prev and toggle, and across add (`AppendKeepsInRange`). It
does not hold across delete (`DeleteCanStrandCursor`). That is why the counter checks
the index against the deck length (`CounterText`, `Render`).

Three behaviours of app.js that the model keeps:

- A delete whose id is not found saves nothing.
- The arrow keys step through the deck whenever the overlay is open, even if the
  manage modal is open too.
- Escape closes the overlay without returning early, but nothing after it can act
  once the overlay is closed.

## Model

| member | source | states |
|---|---|---|
| `Text.TrimStart` | app.js:341 | the result is the suffix of the input after its leading whitespace, and does not start with whitespace |
| `Text.TrimEnd` | app.js:341 | the result is the prefix of the input before its trailing whitespace, and does not end with whitespace |
| `Text.Trim` | app.js:341 | `trim()`: the result is a slice of the input with only whitespace cut off before and after it, and neither end of it is whitespace |
| `Text.TrimEmptyIffBlank` | app.js:341-344 | the trimmed term is empty exactly when the typed text is all whitespace |
| `Text.DecimalString` | app.js:181 | `String(n)` is non-empty decimal digits, with a leading `0` only for 0 |
| `Text.DecimalRoundTrip` | app.js:181 | the decimal text reads back as the number written |
| `Store.EmptyStore` | app.js:48-54 | the fresh store has exactly the known categories, each with an empty list |
| `Store.InitData` | app.js:48-54 | the `forEach` over the categories builds the fresh store |
| `Store.Normalize` | app.js:62-68 | every known category holds an array afterwards; a missing or non-array value becomes `[]`; arrays and unknown keys are kept unchanged; no other key appears |
| `Store.Load` | app.js:56-73 | the loaded store always holds an array for every known category; an empty or unreadable slot gives the fresh store; every parsed array and every unknown key is kept as stored |
| `Store.CardsOf` | app.js:198 | the cards of a category, falling back to none when its value is not an array, are the category's stored array in a normalised store, and any non-empty result is the array stored under `c` |
| `Store.LoadData` | app.js:56-73 | loading gives the fresh store when the slot is empty or does not parse, and otherwise the parsed object after the category loop |
| `Store.SaveLoadRoundTrip` | app.js:56-82 | loading what was saved from a normalised store gives the same store back |
| `Store.FindIndex` | app.js:320 | `findIndex`: -1 exactly when no card has the id, otherwise the first position holding it |
| `Store.DeleteById` | app.js:319-322 | without a match the list is unchanged; with one it is one card shorter, the cards before the match stay in place and the ones after shift down by one |
| `Store.DeleteRemovesExactlyOne` | app.js:320-322 | a delete removes exactly one card with that id, and none with any other id; the remaining cards, with the removed card added back, are the original multiset |
| `Store.ValidateEntry` | app.js:341-347 | the entry is accepted exactly when a file is chosen and the term is not blank; the stored term is the trimmed text, non-empty and without whitespace at either end |
| `Learning.OpenAt` | app.js:196-207 | opening gives an in-range index with the term hidden: a valid start is kept, a start past the end gives the last card, a negative or missing start gives 0, and an empty deck gives 0 |
| `Learning.Next` | app.js:227-232 | no change exactly when the index is at or past the last card (also on an empty deck); otherwise exactly one step forward with the term hidden; the index invariant is kept |
| `Learning.Prev` | app.js:234-239 | no change exactly when the index is at most 0; otherwise exactly one step back with the term hidden; the index invariant is kept |
| `Learning.Toggle` | app.js:241-245 | no change exactly on an empty deck; otherwise only the term flag flips, and the index stays |
| `Learning.ToggleTwice` | app.js:241-245 | toggling twice restores the cursor |
| `Learning.NextThenPrev` | app.js:227-239 | inside the deck, a step back undoes a step forward |
| `Learning.PrevThenNext` | app.js:227-239 | inside the deck, a step forward undoes a step back |
| `Learning.AppendKeepsInRange` | app.js:362 | pushing a card onto the deck's array keeps the index invariant |
| `Learning.DeleteCanStrandCursor` | app.js:322 | for every deck of two or more cards, a cursor on the last card is in range before a delete that finds its id and past the end after it |
| `Learning.PrevDisabled` | app.js:158 | the previous button is disabled on an empty deck, and otherwise exactly when a step back changes nothing |
| `Learning.NextDisabled` | app.js:159 | the next button is disabled on an empty deck, and exactly when a step forward changes nothing |
| `Learning.ToggleDisabled` | app.js:160 | the toggle button is disabled exactly when toggling changes nothing |
| `Learning.CounterPairReadsBack` | app.js:181 | the text `"<a>/<b>"` reads back as (a, b) |
| `Learning.CounterText` | app.js:171-181 | the counter is exactly `String(index + 1) + "/" + String(length)` (decimal digits without leading zeros) when the index is a position of the deck and exactly "0/0" otherwise, and it reads back as (index + 1, deck length) or (0, 0) |
| `Learning.CounterZeroIffOutside` | app.js:171-172 | the counter shows `0/0` exactly when the index is not a position of the deck |
| `Learning.Render` | app.js:155-194 | the counter is `CounterText` of the cursor and the deck length; the term text appears only while the term is shown; outside the deck the empty message is shown without an image; the image appears exactly for a card with a non-empty payload; the toggle label is "hide" exactly on a non-empty deck with the term shown; the button flags are the disabled predicates |
| `Keyboard.Dispatch` | app.js:381-410 | Escape closes the modal exactly when it is open, and closes the overlay exactly when only the overlay is open; Tab is trapped exactly while the modal is open; the arrows step exactly while the overlay is open |
| `Keyboard.TrapFocus` | app.js:412-438 | the default is cancelled exactly when focus is moved, and focus moves only to a focusable element. With none focusable, nothing happens. Focus outside the modal goes to the first element. Tab from the last wraps to the first, and Shift+Tab from the first wraps to the last. Any other Tab is left alone |
| `Keyboard.TabCyclesInsideModal` | app.js:412-438 | from any focusable element, Tab and Shift+Tab reach its cyclic neighbour, either through the trap or through the browser's own step |
| `AppState.App.constructor` | app.js:482-485 | start-up loads the store and starts with nothing selected, nothing open, an empty detached deck at index 0 |
| `AppState.App.OpenCategory` | app.js:442-447 | a category button's handler, which calls `openCategory` (app.js:142-147) only for a non-empty name: that name is selected and its screen shown; an empty one changes nothing |
| `AppState.App.CloseCategory` | app.js:149-153 | the category is cleared, the home screen shown and the overlay closed |
| `AppState.App.OpenLearningOverlay` | app.js:196-218 | without a category nothing changes; otherwise the deck becomes the category's own array, the cursor is `OpenAt` of its length, and the overlay is open |
| `AppState.App.CloseLearningOverlay` | app.js:220-225 | the overlay is closed afterwards |
| `AppState.App.NextCard` | app.js:227-232 | the cursor moves by `Next` over the current deck and keeps the index invariant |
| `AppState.App.PrevCard` | app.js:234-239 | the cursor moves by `Prev` and keeps the index invariant |
| `AppState.App.ToggleTermVisibility` | app.js:241-245 | the cursor changes by `Toggle` over the current deck |
| `AppState.App.OpenManageModal` | app.js:247-266 | without a category, or when already open, nothing changes; otherwise the modal opens and remembers the focused element |
| `AppState.App.CloseManageModal` | app.js:268-279 | the modal is closed afterwards; the element to refocus is the remembered one only if it was open |
| `AppState.App.SubmitAddTerm` | app.js:337-351 | without a category nothing happens; otherwise the entry is rejected or reading starts with submit disabled, as `ValidateEntry` decides |
| `AppState.App.FinishAddTerm` | app.js:353-376 | for the trimmed, non-empty term the submit validated, a successful read appends the new card last to the current category's array and saves; other categories are unchanged; the deck grows only if it is that array; a failed read or a missing array changes no card |
| `AppState.App.DeleteCard` | app.js:317-327 | the current category loses the first card with the id and the store is saved exactly when such a card exists; otherwise nothing changes and nothing is saved; the deck shrinks only if it is that array |
| `AppState.App.HandleKeydown` | app.js:381-410 | performs exactly the action `Dispatch` picks: closes the modal and refocuses the remembered element, closes the overlay, applies the focus trap, or steps the cursor; every other key changes nothing and cancels nothing |

## Left out

- Rendering is not modelled: the term grid, the manage list, the manage count and the screen class toggling (app.js:84-140, 281-335). The model keeps only the `screen` field and the learning card's `Render`.
- Storage is reduced to its values. Reading the storage slot and `JSON.parse` become the `Option<Data>` input of `LoadData`. `None` stands for an empty slot, a parse failure, or a top-level JSON value that is not an object (in strict mode this throws too). A top-level JSON array is not distinguished from an object.
- Saving is reported as the `saved` result of `FinishAddTerm` and `DeleteCard`. A failed save only shows an alert and leaves the in-memory store as it is, so it is not modelled. The console warnings are not modelled either.
- `Store.Value`: the elements of a stored array are taken to be card records; the records' own JSON shape is not modelled.
- `AppState.App.OpenLearningOverlay`: a category outside the fixed set whose stored value is a *truthy* non-array JSON value (an object, a non-empty string, a non-zero number or `true`) is treated as an empty, detached deck. The source would use that value itself as the deck. A falsy one gives `[]` there, as in the model. For `DeleteCard` the two agree anyway: `findIndex` throws on a truthy non-array, so nothing changes and nothing is saved.
- `AppState.App.FinishAddTerm`: a read that completes after the category was cleared is treated as pushing onto no array, so it throws and changes nothing. The source looks up the key `"null"` in that case.
- Reading the file (`FileReader`) is asynchronous. It is split into `SubmitAddTerm` and `FinishAddTerm`, and the read result is a parameter. The card id (from `Date.now` and `Math.random`) and the `createdAt` timestamp are parameters too. The model does not enforce that ids are unique.
- The disabled submit button is recorded in `submitDisabled`. That it blocks a second submission is the browser's doing, so `SubmitAddTerm` does not check it. Resetting the form and focusing the term input after an add are not modelled.
- Focus calls are returned as decisions, not performed: `CloseManageModal` returns the element to refocus and `TrapFocus` returns the new focus. Two focus moves are not modelled: the deferred focus of the term input when the modal opens, and the focus of the toggle button when the overlay opens.
- The `modal-open` body class, the `aria-hidden` attributes and the overlay's `is-back` class are presentation and are not modelled. The same goes for listener binding, `stopPropagation`, and the deferred start on `DOMContentLoaded`.
- `Keyboard.TabCyclesInsideModal` assumes the browser's own Tab step follows the document order of the focusable list, which holds only when every element the selector at app.js:413-414 matches can receive focus by Tab and none has a positive `tabindex`. The selector also matches elements Tab skips (a disabled or `type="hidden"` `input`, a disabled `textarea` or `select`, an element with a negative `tabindex` other than `-1`, an element that is not rendered); when such an element is last in the list, Tab from the real last element is not trapped and leaves the modal, and the lemma's browser-step case does not describe that.

=== FILE: app.dfy ===
/**
 * The application state of the flashcard script as one object: the card store,
 * the selected category and screen, the learning overlay's deck and cursor, the
 * manage modal's flag and the element to refocus when it closes, and the add
 * form's busy submit button. Every method is one event handler with the DOM
 * abstracted away; storage writes are reported as a `saved` result.
 */
module AppState {
  import opened Options
  import opened Text
  import opened Store
  import opened Learning
  import opened Keyboard

  datatype Screen = Home | CategoryScreen

  /** What submitting the add form does before the file is read. */
  datatype Submit = NoCategory | Rejected | Reading(term: string)

  /** How reading the chosen image file ended. */
  datatype ReadResult = Loaded(dataUrl: string) | ReadFailed

  class App {
    var data: Data
    var currentCategory: Option<string>
    var screen: Screen
    /**
     * The list `learningState.items` refers to: `Some(c)` is category c's own array,
     * so cards added to or deleted from c show up in the deck; `None` is a detached
     * empty array (the initial one, or the fallback for a category without an array).
     */
    var deck: Option<string>
    var index: int
    var showTerm: bool
    var overlayOpen: bool
    var manageOpen: bool
    var lastFocused: Option<ElementId>
    var submitDisabled: bool

    /** The cards of the learning deck as they are now. */
    function Items(): seq<Card>
      reads this
    {
      match deck
      case None => []
      case Some(c) => CardsOf(data, c)
    }

    function Position(): Cursor
      reads this
    {
      Cursor(index, showTerm)
    }

    ghost predicate Valid()
      reads this
    {
      Normalized(data) && index >= 0
    }

    /** Start-up: load the store, nothing selected, nothing open. */
    constructor (stored: Option<Data>)
      ensures Valid()
      ensures data == Load(stored)
      ensures currentCategory == None && screen == Home && deck == None
      ensures index == 0 && !showTerm && !overlayOpen && !manageOpen
      ensures lastFocused == None && !submitDisabled
    {
      var loaded := LoadData(stored);
      data := loaded;
      currentCategory, screen, deck := None, Home, None;
      index, showTerm := 0, false;
      overlayOpen, manageOpen := false, false;
      lastFocused, submitDisabled := None, false;
    }

    /** A category button: a non-empty name selects that category and shows its screen. */
    method OpenCategory(category: string)
      modifies this`currentCategory, this`screen
      ensures category == "" ==> currentCategory == old(currentCategory) && screen == old(screen)
      ensures category != "" ==> currentCategory == Some(category) && screen == CategoryScreen
    {
      if category != "" {
        currentCategory := Some(category);
        screen := CategoryScreen;
      }
    }

    /** Back to the home screen, closing the learning overlay; the manage modal is left as it is. */
    method CloseCategory()
      modifies this`currentCategory, this`screen, this`overlayOpen
      ensures currentCategory == None && screen == Home && !overlayOpen
    {
      currentCategory := None;
      screen := Home;
      CloseLearningOverlay();
    }

    /** Opens the overlay on the current category's cards at `start`, clamped into the deck. */
    method OpenLearningOverlay(start: Option<int>)
      requires Valid()
      modifies this`deck, this`index, this`showTerm, this`overlayOpen
      ensures Valid()
      ensures currentCategory.None? ==>
        deck == old(deck) && Position() == old(Position()) && overlayOpen == old(overlayOpen)
      ensures currentCategory.Some? ==>
        var c := currentCategory.value;
        && deck == (if c in data && data[c].Array? then Some(c) else None)
        && Items() == CardsOf(data, c)
        && Position() == OpenAt(start, |Items()|)
        && InRange(Position(), |Items()|)
        && overlayOpen
    {
      if currentCategory.None? {
        return;
      }
      var c := currentCategory.value;
      deck := if c in data && data[c].Array? then Some(c) else None;
      var at := OpenAt(start, |Items()|);
      index, showTerm := at.index, at.showTerm;
      overlayOpen := true;
    }

    method CloseLearningOverlay()
      modifies this`overlayOpen
      ensures !overlayOpen
    {
      if !overlayOpen {
        return;
      }
      overlayOpen := false;
    }

    method NextCard()
      requires Valid()
      modifies this`index, this`showTerm
      ensures Valid()
      ensures Position() == Next(old(Position()), |Items()|)
      ensures old(InRange(Position(), |Items()|)) ==> InRange(Position(), |Items()|)
    {
      if index >= |Items()| - 1 {
        return;
      }
      index := index + 1;
      showTerm := false;
    }

    method PrevCard()
      requires Valid()
      modifies this`index, this`showTerm
      ensures Valid()
      ensures Position() == Prev(old(Position()))
      ensures old(InRange(Position(), |Items()|)) ==> InRange(Position(), |Items()|)
    {
      if index <= 0 {
        return;
      }
      index := index - 1;
      showTerm := false;
    }

    method ToggleTermVisibility()
      modifies this`showTerm
      ensures Position() == Toggle(old(Position()), |Items()|)
    {
      if |Items()| == 0 {
        return;
      }
      showTerm := !showTerm;
    }

    /** Opens the manage modal, remembering the focused element; refused without a category or while it is already open. */
    method OpenManageModal(active: ElementId)
      modifies this`manageOpen, this`lastFocused
      ensures old(currentCategory.None? || manageOpen) ==>
        manageOpen == old(manageOpen) && lastFocused == old(lastFocused)
      ensures old(currentCategory.Some? && !manageOpen) ==> manageOpen && lastFocused == Some(active)
    {
      if currentCategory.None? || manageOpen {
        return;
      }
      manageOpen := true;
      lastFocused := Some(active);
    }

    /** Closes the manage modal; `restore` is the element to refocus, if it was open. */
    method CloseManageModal() returns (restore: Option<ElementId>)
      modifies this`manageOpen
      ensures !manageOpen
      ensures restore == if old(manageOpen) then lastFocused else None
    {
      if !manageOpen {
        return None;
      }
      manageOpen := false;
      restore := lastFocused;
    }

    /**
     * Submitting the add form: with a category selected, the trimmed term and a
     * chosen file are required, and reading the file starts with submit disabled.
     */
    method SubmitAddTerm(input: string, hasFile: bool) returns (r: Submit)
      modifies this`submitDisabled
      ensures currentCategory.None? ==> r == NoCategory
      ensures currentCategory.Some? ==>
        r == match ValidateEntry(input, hasFile)
             case None => Rejected
             case Some(term) => Reading(term)
      ensures submitDisabled == (r.Reading? || old(submitDisabled))
    {
      if currentCategory.None? {
        return NoCategory;
      }
      var checked := ValidateEntry(input, hasFile);
      if checked.None? {
        return Rejected;
      }
      r := Reading(checked.value);
      submitDisabled := true;
    }

    /**
     * The file read finished. `term` is the one a `Reading(term)` submit validated,
     * which the read callback keeps. On success the new card is appended to the
     * category selected now and the store is saved; without an array to push onto,
     * the callback throws before anything changes and submit stays disabled. A failed
     * read only re-enables submit.
     */
    method FinishAddTerm(term: string, read: ReadResult, id: string, createdAt: string) returns (saved: bool)
      requires Valid()
      requires IsTrimmedTerm(term)
      modifies this`data, this`submitDisabled
      ensures Valid()
      ensures saved <==>
        read.Loaded? && currentCategory.Some? && currentCategory.value in old(data)
        && old(data)[currentCategory.value].Array?
      ensures saved ==>
        var c := currentCategory.value;
        data == old(data)[c := Array(old(data)[c].cards + [Card(id, term, read.dataUrl, createdAt)])]
      ensures !saved ==> data == old(data)
      ensures submitDisabled == (if read.Loaded? && !saved then old(submitDisabled) else false)
      ensures Items() == if saved && deck == currentCategory
                         then old(Items()) + [Card(id, term, read.dataUrl, createdAt)]
                         else old(Items())
      ensures old(InRange(Position(), |Items()|)) ==> InRange(Position(), |Items()|)
    {
      saved := false;
      if read.ReadFailed? {
        submitDisabled := false;
        return;
      }
      if currentCategory.None? {
        return;
      }
      var c := currentCategory.value;
      if c !in data || !data[c].Array? {
        return;
      }
      var entry := Card(id, term, read.dataUrl, createdAt);
      data := data[c := Array(data[c].cards + [entry])];
      saved := true;
      submitDisabled := false;
    }

    /** The delete button of a card: removes the first card with that id from the current category and saves, or does nothing. */
    method DeleteCard(id: string) returns (saved: bool)
      requires Valid()
      modifies this`data
      ensures Valid()
      ensures currentCategory.None? ==> !saved && data == old(data)
      ensures currentCategory.Some? ==>
        var c := currentCategory.value;
        var before := CardsOf(old(data), c);
        && saved == (FindIndex(before, id) >= 0)
        && (saved ==> data == old(data)[c := Array(DeleteById(before, id))])
        && (!saved ==> data == old(data))
      ensures Items() == if saved && deck == currentCategory then DeleteById(old(Items()), id) else old(Items())
    {
      if currentCategory.None? {
        return false;
      }
      var c := currentCategory.value;
      var list := CardsOf(data, c);
      var k := FindIndex(list, id);
      if k == -1 {
        return false;
      }
      data := data[c := Array(DeleteById(list, id))];
      saved := true;
    }

    /**
     * A keydown on the document: performs the action `Dispatch` picks and reports
     * whether the default action is cancelled and where focus is moved.
     */
    method HandleKeydown(key: string, shift: bool, focusable: seq<ElementId>, active: ElementId, activeInModal: bool)
      returns (preventDefault: bool, focus: Option<ElementId>)
      requires Valid()
      modifies this`manageOpen, this`overlayOpen, this`index, this`showTerm
      ensures Valid()
      ensures match Dispatch(key, old(manageOpen), old(overlayOpen))
        case CloseManage =>
          !manageOpen && overlayOpen == old(overlayOpen) && Position() == old(Position())
          && preventDefault && focus == lastFocused
        case CloseOverlay =>
          !overlayOpen && manageOpen == old(manageOpen) && Position() == old(Position())
          && preventDefault && focus == None
        case TrapTab =>
          manageOpen == old(manageOpen) && overlayOpen == old(overlayOpen) && Position() == old(Position())
          && Trap(focus, preventDefault) == TrapFocus(focusable, active, activeInModal, shift)
        case StepNext =>
          manageOpen == old(manageOpen) && overlayOpen == old(overlayOpen)
          && Position() == Next(old(Position()), |Items()|) && preventDefault && focus == None
        case StepPrev =>
          manageOpen == old(manageOpen) && overlayOpen == old(overlayOpen)
          && Position() == Prev(old(Position())) && preventDefault && focus == None
        case Ignore =>
          manageOpen == old(manageOpen) && overlayOpen == old(overlayOpen) && Position() == old(Position())
          && !preventDefault && focus == None
    {
      preventDefault, focus := false, None;
      match Dispatch(key, manageOpen, overlayOpen)
      case CloseManage =>
        focus := CloseManageModal();
        preventDefault := true;
      case CloseOverlay =>
        CloseLearningOverlay();
        preventDefault := true;
      case TrapTab =>
        var t := TrapFocus(focusable, active, activeInModal, shift);
        preventDefault, focus := t.preventDefault, t.focus;
      case StepNext =>
        preventDefault := true;
        NextCard();
      case StepPrev =>
        preventDefault := true;
        PrevCard();
      case Ignore =>
    }
  }
}

=== FILE: keyboard.dfy ===
/**
 * The document-level key handling: which key does what depending on which of the
 * manage modal and the learning overlay is open, and the Tab containment inside
 * the manage modal. Focus moves are returned as decisions instead of performed.
 */
module Keyboard {
  import opened Options

  /** A DOM element, by identity. */
  type ElementId = nat

  /** What one keydown does. */
  datatype KeyAction = CloseManage | CloseOverlay | TrapTab | StepNext | StepPrev | Ignore

  predicate IsEscape(key: string) {
    key == "Escape" || key == "Esc"
  }

  /**
   * The keydown dispatch. Escape closes the manage modal first and the overlay only
   * when the modal is closed; Tab is handled only while the modal is open; the arrow
   * keys step through the deck only while the overlay is open.
   */
  function Dispatch(key: string, manageOpen: bool, overlayOpen: bool): (a: KeyAction)
    ensures a == CloseManage <==> IsEscape(key) && manageOpen
    ensures a == CloseOverlay <==> IsEscape(key) && !manageOpen && overlayOpen
    ensures a == TrapTab <==> key == "Tab" && manageOpen
    ensures a == StepNext <==> key == "ArrowRight" && overlayOpen
    ensures a == StepPrev <==> key == "ArrowLeft" && overlayOpen
  {
    if IsEscape(key) then
      (if manageOpen then CloseManage else if overlayOpen then CloseOverlay else Ignore)
    else if key == "Tab" && manageOpen then TrapTab
    else if overlayOpen && key == "ArrowRight" then StepNext
    else if overlayOpen && key == "ArrowLeft" then StepPrev
    else Ignore
  }

  /** The focus-trap decision: where focus is moved, if anywhere, and whether the Tab's default action is cancelled. */
  datatype Trap = Trap(focus: Option<ElementId>, preventDefault: bool)

  /**
   * Tab inside the open modal, given its focusable elements in document order.
   * Focus outside the modal is pulled to the first element; Tab from the last
   * element wraps to the first and Shift+Tab from the first wraps to the last;
   * any other Tab is left to the browser.
   */
  function TrapFocus(focusable: seq<ElementId>, active: ElementId, activeInModal: bool, shift: bool): (t: Trap)
    ensures t.preventDefault <==> t.focus.Some?
    ensures t.focus.Some? ==> t.focus.value in focusable
    ensures focusable == [] ==> t.focus.None?
    ensures focusable != [] && !activeInModal ==> t.focus == Some(focusable[0])
    ensures focusable != [] && activeInModal && !shift && active == focusable[|focusable| - 1]
      ==> t.focus == Some(focusable[0])
    ensures focusable != [] && activeInModal && shift && active == focusable[0]
      ==> t.focus == Some(focusable[|focusable| - 1])
    ensures focusable != [] && activeInModal && active != (if shift then focusable[0] else focusable[|focusable| - 1])
      ==> t.focus.None?
  {
    if focusable == [] then Trap(None, false)
    else
      var first, last := focusable[0], focusable[|focusable| - 1];
      if !activeInModal then Trap(Some(first), true)
      else if !shift && active == last then Trap(Some(first), true)
      else if shift && active == first then Trap(Some(last), true)
      else Trap(None, false)
  }

  predicate Distinct(s: seq<ElementId>) {
    forall i, j :: 0 <= i < j < |s| ==> s[i] != s[j]
  }

  /** The position one Tab (or Shift+Tab) away from `j` in a cycle of `n` positions. */
  function CyclicStep(j: nat, n: nat, shift: bool): nat
    requires j < n
  {
    if shift then (if j == 0 then n - 1 else j - 1)
    else (if j == n - 1 then 0 else j + 1)
  }

  /**
   * Focus cycles inside the modal: from the focusable element at position j, either
   * the trap moves focus to the cyclic neighbour itself, or it stays out of the way
   * and the browser's own step to the adjacent element is that neighbour. The second
   * case describes the browser only when every element the selector matches can
   * receive focus by Tab and none has a positive tabindex.
   */
  lemma TabCyclesInsideModal(focusable: seq<ElementId>, j: nat, shift: bool)
    requires Distinct(focusable) && j < |focusable|
    ensures var t := TrapFocus(focusable, focusable[j], true, shift);
      var k := CyclicStep(j, |focusable|, shift);
      t.focus == Some(focusable[k]) || (t.focus.None? && k == (if shift then j - 1 else j + 1))
  {
  }
}

=== FILE: learning.dfy ===
/**
 * The learning overlay's cursor over the deck (`learningState.index` and
 * `learningState.showTerm`) and what the overlay shows for a given cursor.
 * Every transition takes the deck's current length, because the deck is the
 * category's own list and can grow or shrink between two calls.
 */
module Learning {
  import opened Options
  import opened Text
  import opened Store

  datatype Cursor = Cursor(index: int, showTerm: bool)

  /** The index invariant: 0 on an empty deck, otherwise a valid position. */
  predicate InRange(c: Cursor, total: nat) {
    if total == 0 then c.index == 0 else 0 <= c.index < total
  }

  function Min(a: int, b: int): int { if a <= b then a else b }

  function Max(a: int, b: int): int { if a >= b then a else b }

  /** Opening the overlay at `start` (`None` when the argument is not a number): clamped into the deck, term hidden. */
  function OpenAt(start: Option<int>, total: nat): (c: Cursor)
    ensures InRange(c, total) && !c.showTerm
    ensures start.Some? && 0 <= start.value < total ==> c.index == start.value
    ensures total > 0 && start.Some? && start.value >= total ==> c.index == total - 1
    ensures start.None? || start.value < 0 ==> c.index == 0
  {
    if total == 0 then Cursor(0, false)
    else
      var safeIndex := if start.Some? then start.value else 0;
      Cursor(Min(Max(safeIndex, 0), total - 1), false)
  }

  /** The next-card step: stops at the last card, otherwise one step forward with the term hidden again. */
  function Next(c: Cursor, total: nat): (r: Cursor)
    ensures r == c <==> c.index >= total - 1
    ensures r != c ==> r.index == c.index + 1 && !r.showTerm
    ensures InRange(c, total) ==> InRange(r, total)
  {
    if c.index >= total - 1 then c else Cursor(c.index + 1, false)
  }

  /** The previous-card step: stops at the first card, otherwise one step back with the term hidden again. */
  function Prev(c: Cursor): (r: Cursor)
    ensures r == c <==> c.index <= 0
    ensures r != c ==> r.index == c.index - 1 && !r.showTerm
    ensures forall total: nat :: InRange(c, total) ==> InRange(r, total)
  {
    if c.index <= 0 then c else Cursor(c.index - 1, false)
  }

  /** Showing or hiding the term: nothing on an empty deck, otherwise only the flag flips. */
  function Toggle(c: Cursor, total: nat): (r: Cursor)
    ensures r == c <==> total == 0
    ensures r.index == c.index
    ensures total > 0 ==> r.showTerm == !c.showTerm
  {
    if total == 0 then c else Cursor(c.index, !c.showTerm)
  }

  /** Toggling twice restores the cursor. */
  lemma ToggleTwice(c: Cursor, total: nat)
    ensures Toggle(Toggle(c, total), total) == c
  {
  }

  /** Inside the deck, a forward step is undone by a backward step (the term stays hidden). */
  lemma NextThenPrev(c: Cursor, total: nat)
    requires InRange(c, total) && c.index < total - 1
    ensures Prev(Next(c, total)) == Cursor(c.index, false)
  {
  }

  /** Inside the deck, a backward step is undone by a forward step (the term stays hidden). */
  lemma PrevThenNext(c: Cursor, total: nat)
    requires InRange(c, total) && c.index > 0
    ensures Next(Prev(c), total) == Cursor(c.index, false)
  {
  }

  /** Pushing a card onto the deck's array keeps the index invariant. */
  lemma AppendKeepsInRange(c: Cursor, total: nat)
    requires InRange(c, total)
    ensures InRange(c, total + 1)
  {
  }

  /**
   * Deleting a card from the deck's array can break the index invariant: a cursor on
   * the last card is past the end once any card is removed (the case the counter's
   * range guard is for).
   */
  lemma DeleteCanStrandCursor(cards: seq<Card>, id: string, c: Cursor)
    requires |cards| >= 2 && c.index == |cards| - 1 && FindIndex(cards, id) >= 0
    ensures InRange(c, |cards|) && !InRange(c, |DeleteById(cards, id)|)
  {
  }

  /**
   * The previous button's `disabled`: on an empty deck, and otherwise exactly when a
   * step back would change nothing.
   */
  function PrevDisabled(c: Cursor, total: nat): (r: bool)
    ensures total == 0 ==> r
    ensures total > 0 ==> (r <==> Prev(c) == c)
  {
    total == 0 || c.index <= 0
  }

  /** The next button's `disabled`: exactly when a step forward would change nothing (the index is never negative). */
  function NextDisabled(c: Cursor, total: nat): (r: bool)
    ensures total == 0 ==> r
    ensures c.index >= 0 ==> (r <==> Next(c, total) == c)
  {
    total == 0 || c.index >= total - 1
  }

  /** The toggle button's `disabled`: exactly when toggling would change nothing. */
  function ToggleDisabled(c: Cursor, total: nat): (r: bool)
    ensures r <==> Toggle(c, total) == c
  {
    total == 0
  }

  const SHOW_LABEL := "용어 보기"
  const HIDE_LABEL := "용어 숨기기"
  const EMPTY_MESSAGE := "아직 용어가 없습니다. 관리에서 추가하세요."

  /** Reads a counter text as (position, total): the decimal numbers on either side of its first '/'. */
  function ReadCounter(s: string): Option<(nat, nat)> {
    var k := IndexOf(s, '/');
    if k < 0 || !IsDigits(s[..k]) || !IsDigits(s[k + 1..]) then None
    else Some((DigitsValue(s[..k]), DigitsValue(s[k + 1..])))
  }

  /** Two numbers written as `"<a>/<b>"` read back as (a, b). */
  lemma CounterPairReadsBack(a: nat, b: nat)
    ensures ReadCounter(DecimalString(a) + "/" + DecimalString(b)) == Some((a, b))
  {
    var x, y := DecimalString(a), DecimalString(b);
    var s := x + "/" + y;
    assert s[..|x|] == x;
    var k := IndexOf(s, '/');
    assert k == |x|;
    assert s[k + 1..] == y;
    DecimalRoundTrip(a);
    DecimalRoundTrip(b);
  }

  /**
   * The position counter, `"<index+1>/<total>"`, or `"0/0"` when the index is not a
   * position of the deck: it always reads back as the 1-based position and the deck
   * length, or as 0 of 0 outside the deck.
   */
  function CounterText(index: int, total: nat): (r: string)
    ensures 0 <= index < total ==> r == DecimalString(index + 1) + "/" + DecimalString(total)
    ensures !(0 <= index < total) ==> r == "0/0"
    ensures ReadCounter(r) == if 0 <= index < total then Some((index + 1, total)) else Some((0, 0))
  {
    if total == 0 || index < 0 || index >= total then
      CounterPairReadsBack(0, 0);
      assert DecimalString(0) + "/" + DecimalString(0) == "0/0";
      "0/0"
    else
      CounterPairReadsBack(index + 1, total);
      DecimalString(index + 1) + "/" + DecimalString(total)
  }

  /** The counter shows "0/0" exactly when the index is not a position of the deck. */
  lemma CounterZeroIffOutside(index: int, total: nat)
    ensures CounterText(index, total) == "0/0" <==> !(0 <= index < total)
  {
  }

  /** Everything the overlay displays for a cursor over `items`. */
  datatype View = View(
    counter: string,
    image: Option<string>,
    termText: string,
    prevDisabled: bool,
    nextDisabled: bool,
    toggleDisabled: bool,
    toggleLabel: string)

  /**
   * The overlay's card and its controls. The term text appears only while the term is
   * shown, an out-of-range index shows the empty-deck message, and the image appears
   * when the card has a non-empty image payload.
   */
  function Render(items: seq<Card>, c: Cursor): (v: View)
    ensures v.counter == CounterText(c.index, |items|)
    ensures !(0 <= c.index < |items|) ==> v.counter == "0/0" && v.termText == EMPTY_MESSAGE && v.image == None
    ensures 0 <= c.index < |items| ==> v.termText == (if c.showTerm then items[c.index].term else "")
    ensures v.image.Some? <==> 0 <= c.index < |items| && items[c.index].imageDataUrl != ""
    ensures v.image.Some? ==> v.image.value == items[c.index].imageDataUrl
    ensures v.toggleLabel == HIDE_LABEL <==> |items| > 0 && c.showTerm
    ensures v.prevDisabled == PrevDisabled(c, |items|)
    ensures v.nextDisabled == NextDisabled(c, |items|)
    ensures v.toggleDisabled == ToggleDisabled(c, |items|)
  {
    var total := |items|;
    var toggleText := if total > 0 && c.showTerm then HIDE_LABEL else SHOW_LABEL;
    var counter := CounterText(c.index, total);
    if total == 0 || c.index < 0 || c.index >= total then
      View(counter, None, EMPTY_MESSAGE, PrevDisabled(c, total), NextDisabled(c, total), ToggleDisabled(c, total), toggleText)
    else
      var item := items[c.index];
      View(counter,
           if item.imageDataUrl != "" then Some(item.imageDataUrl) else None,
           if c.showTerm then item.term else "",
           PrevDisabled(c, total), NextDisabled(c, total), ToggleDisabled(c, total), toggleText)
  }
}

=== FILE: options.dfy ===
/** The optional value used wherever the script has `null`, `undefined` or "nothing here". */
module Options {
  datatype Option<+T> = None | Some(value: T)
}

=== FILE: store.dfy ===
/**
 * The card store: a map from category name to the ordered list of cards of that
 * category, as loaded from the single storage slot and changed by add and delete.
 */
module Store {
  import opened Options
  import opened Text

  /** One flashcard record as kept in storage: `{id, term, imageDataUrl, createdAt}`. */
  datatype Card = Card(id: string, term: string, imageDataUrl: string, createdAt: string)

  /**
   * A value under one key of the parsed storage object, as far as the script looks at it:
   * either an array (of card records) or any other JSON value, kept as its text.
   */
  datatype Value = Array(cards: seq<Card>) | Other(json: string)

  type Data = map<string, Value>

  /** The fixed category names, in display order. */
  const CATEGORIES: seq<string> := ["산업안전보건법", "산업안전일반", "기업진단지도"]

  function CategorySet(): (s: set<string>)
    ensures forall k :: k in s <==> k in CATEGORIES
  {
    set c | c in CATEGORIES
  }

  /** Every known category holds an array. */
  predicate Normalized(data: Data) {
    forall c :: c in CATEGORIES ==> c in data && data[c].Array?
  }

  /** The fresh store: every known category mapped to an empty list and nothing else. */
  function EmptyStore(): (m: Data)
    ensures Normalized(m)
    ensures forall k :: k in m <==> k in CATEGORIES
    ensures forall k :: k in m ==> m[k].cards == []
  {
    map c | c in CATEGORIES :: Array([])
  }

  /**
   * The parsed object after the category check: a known category whose value is
   * missing or not an array gets `[]`, arrays are kept, other keys are left alone.
   */
  function Normalize(parsed: Data): (m: Data)
    ensures Normalized(m)
    ensures forall k :: k in m <==> k in parsed || k in CATEGORIES
    ensures forall k :: k in parsed && k !in CATEGORIES ==> m[k] == parsed[k]
    ensures forall k :: k in parsed && parsed[k].Array? ==> m[k] == parsed[k]
    ensures forall c :: c in CATEGORIES && (c !in parsed || !parsed[c].Array?) ==> m[c] == Array([])
  {
    map k | k in parsed.Keys + CategorySet() ::
      if k in CATEGORIES && (k !in parsed || !parsed[k].Array?) then Array([]) else parsed[k]
  }

  /**
   * What loading yields from the storage slot after JSON parsing: `None` stands for
   * an absent or empty slot and for text that does not parse to an object.
   */
  function Load(stored: Option<Data>): (r: Data)
    ensures Normalized(r)
    ensures stored.None? ==> r == EmptyStore()
    ensures stored.Some? ==>
      forall k :: k in stored.value && (k !in CATEGORIES || stored.value[k].Array?) ==> k in r && r[k] == stored.value[k]
  {
    match stored
    case None => EmptyStore()
    case Some(parsed) => Normalize(parsed)
  }

  /** The category loop that builds the fresh store. */
  method InitData() returns (initial: Data)
    ensures initial == EmptyStore()
  {
    initial := map[];
    for i := 0 to |CATEGORIES|
      invariant forall k :: k in initial <==> k in CATEGORIES[..i]
      invariant forall k :: k in initial ==> initial[k] == Array([])
    {
      initial := initial[CATEGORIES[i] := Array([])];
    }
    assert CATEGORIES[..|CATEGORIES|] == CATEGORIES;
  }

  /** Loading at start-up: a fresh store, or the parsed object with every known category overwritten by `[]` unless it is an array. */
  method LoadData(stored: Option<Data>) returns (data: Data)
    ensures data == Load(stored)
  {
    if stored.None? {
      data := InitData();
      return;
    }
    data := stored.value;
    for i := 0 to |CATEGORIES|
      invariant forall k :: k in data <==> k in stored.value || k in CATEGORIES[..i]
      invariant forall k :: k in data ==>
        data[k] == if k in CATEGORIES[..i] && (k !in stored.value || !stored.value[k].Array?)
                   then Array([]) else stored.value[k]
    {
      var cat := CATEGORIES[i];
      if cat !in data || !data[cat].Array? {
        data := data[cat := Array([])];
      }
    }
    assert CATEGORIES[..|CATEGORIES|] == CATEGORIES;
  }

  /** Storing a normalised store and loading it again gives the same store back. */
  lemma SaveLoadRoundTrip(data: Data)
    requires Normalized(data)
    ensures Load(Some(data)) == data
  {
  }

  /**
   * The cards of category `c`, modelling `data[c] || []`: a value that is not an array
   * reads as no cards. The script's `||` gives `[]` only for a falsy value (missing,
   * `null`, `false`, `0`, `""`); a truthy non-array is kept as it is, which the model
   * does not follow. In a normalised store neither case arises for a known category.
   */
  function CardsOf(data: Data, c: string): (r: seq<Card>)
    ensures Normalized(data) && c in CATEGORIES ==> r == data[c].cards
    ensures r != [] ==> c in data && data[c] == Array(r)
  {
    if c in data && data[c].Array? then data[c].cards else []
  }

  /** `findIndex(x => x.id === id)`: the first position holding that id, or -1. */
  function FindIndex(cards: seq<Card>, id: string): (r: int)
    ensures -1 <= r < |cards|
    ensures r == -1 <==> forall j :: 0 <= j < |cards| ==> cards[j].id != id
    ensures 0 <= r ==> cards[r].id == id && forall j :: 0 <= j < r ==> cards[j].id != id
  {
    if cards == [] then -1
    else if cards[0].id == id then 0
    else
      var k := FindIndex(cards[1..], id);
      if k == -1 then -1 else k + 1
  }

  /**
   * The list after `splice(findIndex(...), 1)` when the id is found: the first card
   * with that id is gone and the others keep their order; without a match nothing changes.
   */
  function DeleteById(cards: seq<Card>, id: string): (r: seq<Card>)
    ensures FindIndex(cards, id) == -1 ==> r == cards
    ensures FindIndex(cards, id) >= 0 ==> |r| == |cards| - 1
    ensures forall j :: 0 <= j < |r| && j < FindIndex(cards, id) ==> r[j] == cards[j]
    ensures forall j :: 0 <= FindIndex(cards, id) <= j < |r| ==> r[j] == cards[j + 1]
  {
    var k := FindIndex(cards, id);
    if k == -1 then cards else cards[..k] + cards[k + 1..]
  }

  /** How many cards carry `id`. */
  function CountId(cards: seq<Card>, id: string): nat {
    if cards == [] then 0 else (if cards[0].id == id then 1 else 0) + CountId(cards[1..], id)
  }

  lemma {:induction false} CountIdAppend(a: seq<Card>, b: seq<Card>, id: string)
    ensures CountId(a + b, id) == CountId(a, id) + CountId(b, id)
  {
    if a == [] {
      assert a + b == b;
    } else {
      assert (a + b)[1..] == a[1..] + b;
      CountIdAppend(a[1..], b, id);
    }
  }

  /**
   * A delete removes exactly one card with the given id when one exists, and no
   * card with any other id; the cards that remain are the same cards as before.
   */
  lemma DeleteRemovesExactlyOne(cards: seq<Card>, id: string, other: string)
    ensures var k := FindIndex(cards, id);
      CountId(DeleteById(cards, id), other)
        == CountId(cards, other) - (if k >= 0 && other == id then 1 else 0)
    ensures FindIndex(cards, id) >= 0 ==>
      multiset(DeleteById(cards, id)) + multiset{cards[FindIndex(cards, id)]} == multiset(cards)
  {
    var k := FindIndex(cards, id);
    if k >= 0 {
      assert cards == cards[..k] + [cards[k]] + cards[k + 1..];
      CountIdAppend(cards[..k] + [cards[k]], cards[k + 1..], other);
      CountIdAppend(cards[..k], [cards[k]], other);
      CountIdAppend(cards[..k], cards[k + 1..], other);
      assert CountId([cards[k]], other) == (if cards[k].id == other then 1 else 0) by {
        assert [cards[k]][1..] == [];
      }
    }
  }

  /**
   * The add form's check: the trimmed term must be non-empty and a file chosen.
   * The result is the term to store.
   */
  function ValidateEntry(input: string, hasFile: bool): (r: Option<string>)
    ensures r.Some? <==> hasFile && !AllWhitespace(input)
    ensures r.Some? ==> r.value == Trim(input) && IsTrimmedTerm(r.value)
  {
    TrimEmptyIffBlank(input);
    var term := Trim(input);
    if term == [] || !hasFile then None else Some(term)
  }
}

=== FILE: text.dfy ===
/**
 * The two pieces of string handling the script relies on: `String.prototype.trim`
 * (applied to the term typed into the add form) and `String(n)` for the
 * non-negative integers shown in the learning counter.
 */
module Text {

  /** The code points `trim` removes: ECMAScript WhiteSpace and LineTerminator. */
  predicate IsWhitespace(c: char) {
    c == ' ' || c == '\t' || c == '\n' || c == '\r' || c == '\U{B}' || c == '\U{C}'
    || c == '\U{A0}' || c == '\U{FEFF}' || c == '\U{1680}' || ('\U{2000}' <= c <= '\U{200A}')
    || c == '\U{2028}' || c == '\U{2029}' || c == '\U{202F}' || c == '\U{205F}' || c == '\U{3000}'
  }

  predicate AllWhitespace(s: string) {
    forall i :: 0 <= i < |s| ==> IsWhitespace(s[i])
  }

  /** The position of the first non-whitespace character at or after `k`, or `|s|`. */
  function SkipBlanks(s: string, k: nat): (n: nat)
    requires k <= |s|
    requires forall i :: 0 <= i < k ==> IsWhitespace(s[i])
    ensures k <= n <= |s|
    ensures forall i :: 0 <= i < n ==> IsWhitespace(s[i])
    ensures n == |s| || !IsWhitespace(s[n])
    decreases |s| - k
  {
    if k < |s| && IsWhitespace(s[k]) then SkipBlanks(s, k + 1) else k
  }

  /** The position just after the last non-whitespace character before `k`, or 0. */
  function SkipBlanksBack(s: string, k: nat): (m: nat)
    requires k <= |s|
    requires forall i :: k <= i < |s| ==> IsWhitespace(s[i])
    ensures m <= k
    ensures forall i :: m <= i < |s| ==> IsWhitespace(s[i])
    ensures m == 0 || !IsWhitespace(s[m - 1])
  {
    if k > 0 && IsWhitespace(s[k - 1]) then SkipBlanksBack(s, k - 1) else k
  }

  /** Drops the leading whitespace: the result is the suffix that starts at the first other character. */
  function TrimStart(s: string): (r: string)
    ensures |r| <= |s| && r == s[|s| - |r|..]
    ensures AllWhitespace(s[..|s| - |r|])
    ensures r == [] || !IsWhitespace(r[0])
  {
    var n := SkipBlanks(s, 0);
    assert forall i :: 0 <= i < n ==> s[..n][i] == s[i];
    s[n..]
  }

  /** Drops the trailing whitespace: the result is the prefix that ends at the last other character. */
  function TrimEnd(s: string): (r: string)
    ensures |r| <= |s| && r == s[..|r|]
    ensures AllWhitespace(s[|r|..])
    ensures r == [] || !IsWhitespace(r[|r| - 1])
  {
    var m := SkipBlanksBack(s, |s|);
    assert forall i :: 0 <= i < |s| - m ==> s[m..][i] == s[m + i];
    s[..m]
  }

  /**
   * `s.trim()`: the input with its leading and trailing whitespace cut off and
   * nothing else, so neither end of the result is whitespace.
   */
  function Trim(s: string): (r: string)
    ensures |r| <= |s|
    ensures exists i, j :: 0 <= i <= j <= |s| && r == s[i..j] && AllWhitespace(s[..i]) && AllWhitespace(s[j..])
    ensures r == [] || (!IsWhitespace(r[0]) && !IsWhitespace(r[|r| - 1]))
  {
    var t := TrimStart(s);
    var r := TrimEnd(t);
    var i := |s| - |t|;
    var j := i + |r|;
    assert r == s[i..j];
    assert s[j..] == t[|r|..];
    r
  }

  /** A term as `trim` leaves it: non-empty, with no whitespace at either end. */
  predicate IsTrimmedTerm(term: string) {
    term != [] && !IsWhitespace(term[0]) && !IsWhitespace(term[|term| - 1])
  }

  /** The trimmed text is empty exactly when the input is blank, so `!term` rejects blank input and nothing else. */
  lemma TrimEmptyIffBlank(s: string)
    ensures Trim(s) == [] <==> AllWhitespace(s)
  {
  }

  predicate IsDigit(c: char) {
    '0' <= c <= '9'
  }

  predicate IsDigits(s: string) {
    forall i :: 0 <= i < |s| ==> IsDigit(s[i])
  }

  function DigitChar(d: nat): (c: char)
    requires d < 10
    ensures IsDigit(c) && c as int - '0' as int == d
  {
    ('0' as int + d) as char
  }

  /** `String(n)` for a non-negative integer: decimal digits, with a leading zero only for 0 itself. */
  function DecimalString(n: nat): (r: string)
    ensures r != [] && IsDigits(r)
    ensures r[0] == '0' <==> n == 0
    ensures n == 0 ==> r == "0"
  {
    if n < 10 then [DigitChar(n)] else DecimalString(n / 10) + [DigitChar(n % 10)]
  }

  /** The number a string of decimal digits denotes. */
  function DigitsValue(s: string): nat
    requires IsDigits(s)
  {
    if s == [] then 0 else DigitsValue(s[..|s| - 1]) * 10 + (s[|s| - 1] as int - '0' as int)
  }

  /** Reading the decimal text back gives the number that was written. */
  lemma {:induction false} DecimalRoundTrip(n: nat)
    ensures DigitsValue(DecimalString(n)) == n
  {
    if n >= 10 {
      var s := DecimalString(n);
      assert s[..|s| - 1] == DecimalString(n / 10);
      DecimalRoundTrip(n / 10);
    }
  }

  /** The position of the first `c` in `s`, or -1 when there is none. */
  function IndexOf(s: string, c: char): (r: int)
    ensures -1 <= r < |s|
    ensures r == -1 <==> c !in s
    ensures 0 <= r ==> s[r] == c && c !in s[..r]
  {
    if s == [] then -1
    else if s[0] == c then 0
    else
      var k := IndexOf(s[1..], c);
      if k == -1 then -1 else k + 1
  }
}
